=== FILE: README.md ===
# Fondo Parlamentare dashboard: filter and aggregation core

A Dafny model of the one piece of logic in the Streamlit dashboard of the
parliamentary discretionary fund (`app.py`). The dashboard loads a table of
disbursements. The user narrows it with four selectors (macro-sector, subject
type, region, year) and a free-text beneficiary search. The page then shows:

- the total amount;
- three distinct counts (beneficiaries, sectors, regions other than "Non assegnata");
- four rankings: sectors in full, the top 8 subject types, the top 12 beneficiaries and the top 10 regions, the sentinel region excluded;
- a trend by year;
- a detail table whose caption reads "shown N of M".

The model is purely functional. A `Record` holds integer amounts (cents), and the dataset is a `seq<Record>`.

- `records.dfy` (`Records`): the record, the categorical fields, the sentinel `"Non assegnata"`, `Total`.
- `options.dfy` (`FilterOptions`): the selector option lists. Each is the "all" sentinel (`TUTTI`/`TUTTE`) followed by `sorted(unique())` under Python's string order. The year selector's fixed `[None, 2026, 2027]` is also here.
- `search.dfy` (`Search`): the case-insensitive, NaN-safe substring search on the beneficiary.
- `filter.dfy` (`Filter`): the filter chain as the script writes it, as up to five masks applied one after another. It is proved equal to a one-pass AND of the criteria (`Where`). Idempotence, independence of the mask order, and the membership, multiplicity and order of the view are proved too.
- `grouping.dfy` (`Grouping`): generic group-by-sum over (key, amount) pairs, a stable insertion sort used both for ranking (descending amount) and for the trend (ascending year), and `head(n)`.
- `dashboard.dfy` (`Dashboard`): the KPI row, the five charts and the detail guard, put together in `Summarize`, with their properties.
- `scenarios.dfy` (`Scenarios`): two worked examples on a three-record dataset.

A missing beneficiary is `None`. Three pandas behaviours follow from that, and the model keeps each of them:

- `str.contains(..., na=False)` never matches a missing beneficiary.
- `unique()` counts the missing value once in the beneficiary KPI.
- `groupby` drops missing keys, so the beneficiary ranking and the unnamed records together make up the total.

The selectors are compared with their sentinels exactly as the script does. So a category whose value is literally `TUTTI` (or a region named `TUTTE`) would select everything rather than itself. `OfferedValueSelects` covers that case too: selecting such a value gives the whole dataset, which is not empty.

Three further points about the script and how the model treats them:

- Equal amounts in a ranking: the script promises no tie order, because pandas' `sort_values` is not stable. The model keeps first-appearance order (see `Grouping.Rank` below).
- Search scope: the search covers the beneficiary column only.
- Year options: the year selector offers the script's fixed `[None, 2026, 2027]`, not values taken from the data.

## Model

| member | source | states |
|---|---|---|
| FilterOptions.SortedDistinct | app.py:18-20 | the option values are strictly ascending in Python's string order (so duplicate-free) and are exactly the values of the column |
| FilterOptions.Options | app.py:18-20 | an option list is the "all" sentinel followed by the strictly ascending distinct values that the column takes in the dataset, and no others |
| FilterOptions.StrictlySortedDistinct | app.py:18-20 | a strictly ascending option list holds no value twice |
| FilterOptions.LexLessTotal | app.py:18-20 | the string order used by `sorted` is total: two different strings are always ordered one way |
| FilterOptions.LexLessTransitive | app.py:18-20 | the string order used by `sorted` is transitive |
| Search.ContainsIffOccurs | app.py:34 | the substring test holds exactly when the text occurs at some position |
| Search.FoldedContainsIff | app.py:34 | the lower-cased substring test holds exactly when the text occurs in the name at some position, letter by letter up to ASCII case |
| Search.SearchHits | app.py:34 | a missing beneficiary never matches; a present one matches exactly when the search text occurs in it at some position, letter by letter up to ASCII case |
| Search.SearchIgnoresCase | app.py:34 | search texts that differ only in letter case keep the same records |
| Filter.ApplyFilters | app.py:24-34 | the staged filter is no longer than the dataset, and a record is in it exactly when it is in the dataset and meets the reference criteria `Matches` |
| Filter.Select | app.py:26-34 | one mask keeps at most the records it is given, and exactly those satisfying its predicate |
| Filter.ApplyFiltersIsWhere | app.py:24-34 | the staged filter (each stage only when its widget is away from "all") equals the single-pass AND of the five conditions |
| Filter.FilterIsAnd | app.py:24-34 | a record is in the view iff it is in the dataset and meets every active criterion; it occurs as often as in the dataset; the view is an order-preserving subsequence no longer than the dataset |
| Filter.ChainIsKeep | app.py:24-34 | applying masks one after another equals keeping the records that satisfy all of them at once |
| Filter.ChainOrderIrrelevant | app.py:24-34 | any two mask lists with the same members, in any order and with repeats, give the same view |
| Filter.SelectCommutes | app.py:24-34 | any two stages of the chain commute |
| Filter.FilterIdempotent | app.py:24-34 | filtering the view again with the same criteria returns the same view |
| Filter.NoCriteriaKeepsAll | app.py:24-34 | with every widget at its "all" value the view is the whole dataset |
| Filter.WholeDatasetIff | app.py:24-34 | the view is the whole dataset exactly when every record meets the criteria |
| Filter.UnknownSectorEmpties | app.py:25-26 | a sector value that no record carries yields the empty view, not an error |
| Filter.OfferedValueSelects | app.py:18-30 | every value offered by the sector, subject-type or region selector selects at least one record on its own, including one literally equal to the sentinel |
| Filter.OfferedYearMaySelectNothing | app.py:21-32 | the year selector offers 2027 whatever the data holds, and choosing it when no record has that year empties the view |
| Filter.SearchKeeps | app.py:33-34 | with a non-empty search every kept record has a beneficiary containing the text up to case |
| Filter.FilteredTotal | app.py:24-38 | the total of the view equals the amounts of the matching records summed directly over the dataset |
| Grouping.Accumulate | app.py:47 | adding a pair to a grouped list keeps keys distinct and adds exactly its key |
| Grouping.AccumulateAmount | app.py:47 | adding a pair raises its own key's amount by the pair's amount and leaves every other key's amount alone |
| Grouping.GroupInto | app.py:47 | folding pairs into groups keeps keys distinct, unites the key sets, and adds totals and per-key amounts |
| Grouping.GroupSum | app.py:47 | the groups have distinct keys, exactly the input's keys, and each key's amount equals its amount in the input |
| Grouping.GroupSumPartition | app.py:47 | the group values sum to the input total; each group carries its key's total; there is one group per distinct key |
| Grouping.InsertBy | app.py:47 | stable insertion keeps the list ordered and adds exactly the one entry |
| Grouping.SortBy | app.py:47 | sorting yields an ordered permutation of the input |
| Grouping.SortByDistinct | app.py:47 | sorting keeps keys distinct |
| Grouping.SortBySum | app.py:47 | sorting keeps the total |
| Grouping.Rank | app.py:47 | `sort_values(ascending=False)` yields a permutation in non-increasing amount with the same keys and total |
| Grouping.SortByKey | app.py:58 | `sort_index()` on distinct year keys yields a permutation in strictly ascending year with the same total |
| Grouping.TopN | app.py:52 | `head(n)` returns the first min(n, length) entries |
| Grouping.TopKeys | app.py:52 | `head(n)` of a list with distinct keys shows exactly min(n, number of keys) entries, all taken from the list |
| Grouping.TopLeavesOutSmaller | app.py:52 | every entry `head(n)` leaves out of a ranking carries no more than any entry it keeps |
| Grouping.TopOfRanking | app.py:52 | a truncated ranking stays ordered and no entry left out carries more than a shown one |
| Grouping.RankedGroups | app.py:47 | a ranked grouping has distinct keys taken from the input, each with its key's total, non-increasing, summing to the total |
| Dashboard.ProjectFacts | app.py:63 | the pairs seen by `groupby` plus the records with a missing key make up the view's total; keys and per-key amounts are those of the view |
| Dashboard.RankingFacts | app.py:47-67 | every ranking has distinct keys present in the view, each with that key's total over the view, non-increasing, accounting for the whole total except the left-out records |
| Dashboard.SectorChart | app.py:47 | the sector chart has distinct keys in non-increasing order and sums to the view's total |
| Dashboard.SubjectTypeChart | app.py:52 | the subject-type chart has at most 8 entries, distinct and non-increasing, each a subject type of some record of the view carrying its total, and every type of the view left out carries no more than any type shown |
| Dashboard.YearTrend | app.py:58 | the trend's years are strictly ascending and its amounts sum to the view's total |
| Dashboard.BeneficiaryChart | app.py:63 | the beneficiary chart has at most 12 entries, distinct and non-increasing, each a beneficiary named by some record of the view carrying its total, and every named beneficiary left out carries no more than any one shown |
| Dashboard.RegionChart | app.py:67 | the region chart has at most 10 entries, non-increasing, never "Non assegnata", each a region in which some record of the view lies carrying its total, and every other region of the view left out carries no more than any region shown |
| Dashboard.SectorCount | app.py:40 | the sectors KPI equals the number of entries of the sector chart |
| Dashboard.RegionCount | app.py:41 | the region KPI equals the number of regions in the region ranking and is at most the number of distinct regions of the view |
| Dashboard.Summarize | app.py:38-73 | the shown total is the direct sum over the matching records, the detail table appears exactly when some record of the dataset matches, its rows are the filtered view, and its caption shows N of M with N the number of filtered rows and M the dataset size; the sectors KPI equals the length of the sector chart |
| Dashboard.SectorChartFacts | app.py:47 | the sector chart lists every sector of the view once, with its total, non-increasing, and sums to the view's total |
| Dashboard.TopChartSelects | app.py:52-67 | a top-n chart shows exactly min(n, number of groups in the view) entries, each a group of the view, and every group left out carries no more than any group shown |
| Dashboard.TopChartFacts | app.py:52-67 | a top-n chart has at most n entries, is a prefix of the full ranking, and no omitted group outranks a shown one |
| Dashboard.SubjectTypeChartFacts | app.py:52 | the subject-type chart shows at most 8 entries, a prefix of the full ranking, ordered and duplicate-free |
| Dashboard.YearTrendFacts | app.py:58 | the trend has strictly ascending years, exactly the years of the view, each with its total, summing to the view's total |
| Dashboard.BeneficiaryChartFacts | app.py:63 | the beneficiary chart shows at most 12 entries, a prefix of the full ranking; the full ranking plus the unnamed records make up the total |
| Dashboard.RegionChartFacts | app.py:67 | "Non assegnata" never appears among the ranked regions, every other region of the view does, ranking total plus sentinel amount equals the view's total, and the chart shows at most 10 |
| Dashboard.RegionCountFacts | app.py:41 | the region KPI never counts the sentinel, equals the number of ranked regions and is at most the number of distinct regions |
| Dashboard.AssignedRegions | app.py:41 | after masking the sentinel the region column holds exactly the view's other regions |
| Dashboard.DistinctBound | app.py:39-40 | a distinct count never exceeds the number of rows |
| Dashboard.SummaryFacts | app.py:38-73 | the shown total equals the direct sum over matching records, every KPI count is at most the row count, and the detail table appears exactly when a record matches, holding the view and showing N of M with N the number of its rows and 0 < N <= M |
| Dashboard.EmptyViewSummary | app.py:38-73 | an empty view gives total 0, all counts 0, all charts empty and no detail table |
| Dashboard.SearchWithoutHits | app.py:33-73 | a non-empty search that no beneficiary contains empties every figure |
| Scenarios.SectorAScenario | app.py:24-67 | on the sample, sector A keeps two records: total 150, two beneficiaries, region ranking [(Lazio, 150)] |
| Scenarios.UnfilteredScenario | app.py:24-67 | on the sample without filters: total 180, one region counted, sectors ranked [(A, 150), (B, 30)] |

## Left out

- Grouping.Rank: equal amounts keep their first-appearance order in the view. pandas' `sort_values` is not stable and the script promises no tie order, so this is a modelling choice rather than a guarantee of the source.
- Search.SearchHits: the search text is taken as a literal string with ASCII case folding. pandas reads it as a regular expression and folds Unicode case; neither is modelled.
- The Streamlit page, sidebar and widget calls, and the `st.cache_data` load-once cache (app.py:6-22) are UI and runtime plumbing. The widget values become the `Criteria` parameter.
- Reading the CSV file (app.py:13) is I/O. The dataset is a given `seq<Record>`.
- Plotly charts and the `st.dataframe` rendering (app.py:48-72) are foreign presentation calls. The model stops at the data handed to them.
- Grouping.GroupSumPartition, Dashboard.RankingFacts, Dashboard.RegionChartFacts and the other total equalities: the script sums `Importo` as floating-point numbers, so there the groups add up to the total only up to rounding. The equalities are exact here only because amounts are integers in cents.
- The currency formatting `€{sum/1e6:.1f}M` (app.py:38) is float arithmetic and string formatting. Amounts are integers in cents, and the model returns the raw total.
- Missing values in columns other than the beneficiary are not modelled. Every other field is assumed present, as in the loaded table.
- Lines 1 and 77-80 are shell transcript text around the script, and lines 81-155 repeat lines 2-76. Only the first copy is modelled.

=== FILE: dashboard.dfy ===
/** The figures the dashboard shows for one choice of filters (app.py lines
    38-73): the KPI row, five grouped charts and the detail table. */
module Dashboard {
  import opened Records
  import opened Filter
  import opened Grouping
  import opened FilterOptions

  /** The (key, amount) pairs a `groupby` sees. A record whose key is `None`
      is left out: a missing beneficiary (pandas drops NaN group keys) or a
      record masked out before grouping. */
  function Project<K>(view: seq<Record>, key: Record -> Option<K>): seq<(K, int)>
  {
    if |view| == 0 then []
    else match key(view[0])
      case Some(k) => [(k, view[0].amount)] + Project(view[1..], key)
      case None => Project(view[1..], key)
  }

  /** Total amount of the records that `key` leaves out. */
  function Omitted<K>(view: seq<Record>, key: Record -> Option<K>): int
  {
    if |view| == 0 then 0
    else (if key(view[0]).None? then view[0].amount else 0) + Omitted(view[1..], key)
  }

  /** Reference total of one group: the amounts of the records whose key is `k`. */
  function KeyTotal<K(==)>(view: seq<Record>, key: Record -> Option<K>, k: K): int
  {
    if |view| == 0 then 0
    else (if key(view[0]) == Some(k) then view[0].amount else 0) + KeyTotal(view[1..], key, k)
  }

  /** Some record of `view` has key `k`. */
  ghost predicate HasKey<K>(view: seq<Record>, key: Record -> Option<K>, k: K)
  {
    exists i :: 0 <= i < |view| && key(view[i]) == Some(k)
  }

  lemma {:induction false} ProjectFacts<K(!new)>(view: seq<Record>, key: Record -> Option<K>)
    ensures Sum(Project(view, key)) + Omitted(view, key) == Total(view)
    ensures forall k :: k in Keys(Project(view, key)) <==> HasKey(view, key, k)
    ensures forall k :: Amount(Project(view, key), k) == KeyTotal(view, key, k)
  {
    if |view| > 0 {
      ProjectFacts(view[1..], key);
      var p := Project(view, key);
      var rest := Project(view[1..], key);
      if key(view[0]).Some? {
        assert p[1..] == rest;
        KeysTail(p);
      } else {
        assert p == rest;
      }
      forall k ensures HasKey(view, key, k) <==> key(view[0]) == Some(k) || HasKey(view[1..], key, k) {
        if HasKey(view, key, k) && key(view[0]) != Some(k) {
          var i :| 0 <= i < |view| && key(view[i]) == Some(k);
          assert view[1..][i - 1] == view[i];
        }
        if HasKey(view[1..], key, k) {
          var i :| 0 <= i < |view[1..]| && key(view[1..][i]) == Some(k);
          assert view[i + 1] == view[1..][i];
        }
      }
    } else {
      forall k ensures !HasKey(view, key, k) {}
    }
  }

  /** A grouped chart before truncation: `groupby(key).sum()` sorted by
      descending amount. */
  function Ranking<K(==,!new)>(view: seq<Record>, key: Record -> Option<K>): seq<(K, int)>
  {
    Rank(GroupSum(Project(view, key)))
  }

  /** What every ranking promises: one entry per key present in the view,
      carrying that key's total, in non-increasing order, and together
      accounting for every record the key does not leave out. */
  lemma {:induction false} RankingFacts<K(!new)>(view: seq<Record>, key: Record -> Option<K>)
    ensures DistinctKeys(Ranking(view, key))
    ensures NonIncreasing(Ranking(view, key))
    ensures forall k :: k in Keys(Ranking(view, key)) <==> HasKey(view, key, k)
    ensures forall e :: e in Ranking(view, key) ==> e.1 == KeyTotal(view, key, e.0)
    ensures Sum(Ranking(view, key)) + Omitted(view, key) == Total(view)
  {
    ProjectFacts(view, key);
    RankedGroups(Project(view, key));
  }

  function SectorKey(r: Record): Option<string> { Some(r.sector) }
  function SubjectTypeKey(r: Record): Option<string> { Some(r.subjectType) }
  function YearKey(r: Record): Option<int> { Some(r.year) }
  function BeneficiaryKey(r: Record): Option<string> { r.beneficiary }
  function AssignedRegionKey(r: Record): Option<string>
  {
    if r.region == Unassigned then None else Some(r.region)
  }

  lemma {:induction false} NothingOmitted<K>(view: seq<Record>, key: Record -> Option<K>)
    requires forall i :: 0 <= i < |view| ==> key(view[i]).Some?
    ensures Omitted(view, key) == 0
  {
    if |view| > 0 {
      assert key(view[0]).Some?;
      NothingOmitted(view[1..], key);
    }
  }

  /** "Per Macro-Settore" (line 47): every sector of the view once, by
      non-increasing total, the totals adding up to the view's total. */
  function SectorChart(view: seq<Record>): (chart: seq<(string, int)>)
    ensures DistinctKeys(chart) && NonIncreasing(chart)
    ensures Sum(chart) == Total(view)
  {
    RankingFacts(view, SectorKey);
    NothingOmitted(view, SectorKey);
    Ranking(view, SectorKey)
  }

  lemma {:induction false} SectorChartFacts(view: seq<Record>)
    ensures DistinctKeys(SectorChart(view)) && NonIncreasing(SectorChart(view))
    ensures forall s :: s in Keys(SectorChart(view)) <==> exists i :: 0 <= i < |view| && view[i].sector == s
    ensures forall e :: e in SectorChart(view) ==> e.1 == KeyTotal(view, SectorKey, e.0)
    ensures Sum(SectorChart(view)) == Total(view)
  {
    RankingFacts(view, SectorKey);
    NothingOmitted(view, SectorKey);
    forall s ensures HasKey(view, SectorKey, s) <==> exists i :: 0 <= i < |view| && view[i].sector == s {
      if exists i :: 0 <= i < |view| && view[i].sector == s {
        var i :| 0 <= i < |view| && view[i].sector == s;
        assert SectorKey(view[i]) == Some(s);
      }
    }
  }

  const SubjectTypeLimit: nat := 8
  const BeneficiaryLimit: nat := 12
  const RegionLimit: nat := 10

  /** "Per Tipologia" (line 52): the eight largest subject types. */
  function SubjectTypeChart(view: seq<Record>): (chart: seq<(string, int)>)
    ensures |chart| <= SubjectTypeLimit
    ensures NonIncreasing(chart) && DistinctKeys(chart)
    ensures forall e :: e in chart ==> e.1 == KeyTotal(view, SubjectTypeKey, e.0)
    ensures forall e :: e in chart ==> exists i :: 0 <= i < |view| && view[i].subjectType == e.0
    ensures forall k, e :: HasKey(view, SubjectTypeKey, k) && k !in Keys(chart) && e in chart
              ==> e.1 >= KeyTotal(view, SubjectTypeKey, k)
  {
    var t := TopN(Ranking(view, SubjectTypeKey), SubjectTypeLimit);
    TopChartFacts(view, SubjectTypeKey, SubjectTypeLimit);
    TopChartSelects(view, SubjectTypeKey, SubjectTypeLimit);
    forall e | e in t ensures exists i :: 0 <= i < |view| && view[i].subjectType == e.0 {
      var i :| 0 <= i < |view| && SubjectTypeKey(view[i]) == Some(e.0);
    }
    t
  }

  /** A truncated chart shows at most `n` entries, is a prefix of the full
      ranking, stays ordered, and no group left out outranks a shown one. */
  lemma {:induction false} TopChartFacts<K(!new)>(view: seq<Record>, key: Record -> Option<K>, n: nat)
    ensures |TopN(Ranking(view, key), n)| <= n
    ensures TopN(Ranking(view, key), n) == Ranking(view, key)[..|TopN(Ranking(view, key), n)|]
    ensures NonIncreasing(TopN(Ranking(view, key), n))
    ensures DistinctKeys(TopN(Ranking(view, key), n))
    ensures forall e :: e in TopN(Ranking(view, key), n) ==> e.1 == KeyTotal(view, key, e.0)
    ensures forall i, j :: 0 <= i < |TopN(Ranking(view, key), n)| <= j < |Ranking(view, key)| ==>
              TopN(Ranking(view, key), n)[i].1 >= Ranking(view, key)[j].1
  {
    var r := Ranking(view, key);
    RankingFacts(view, key);
    TopOfRanking(r, n);
    var t := TopN(r, n);
    assert t == r[..|t|];
    forall e | e in t ensures e in r {
      var i :| 0 <= i < |t| && t[i] == e;
      assert r[i] == e;
    }
  }

  /** A truncated chart is `head(n)` of the view's groups: it shows n of
      them, or all when there are fewer; every entry is a group of the view;
      and every group of the view it leaves out carries no more than any
      entry it shows. */
  lemma {:induction false} TopChartSelects<K(!new)>(view: seq<Record>, key: Record -> Option<K>, n: nat)
    ensures |TopN(Ranking(view, key), n)| ==
              if |Keys(Ranking(view, key))| <= n then |Keys(Ranking(view, key))| else n
    ensures forall e :: e in TopN(Ranking(view, key), n) ==> HasKey(view, key, e.0)
    ensures forall k, e ::
              HasKey(view, key, k) && k !in Keys(TopN(Ranking(view, key), n)) && e in TopN(Ranking(view, key), n)
              ==> e.1 >= KeyTotal(view, key, k)
  {
    var r := Ranking(view, key);
    var t := TopN(r, n);
    RankingFacts(view, key);
    TopKeys(r, n);
    TopLeavesOutSmaller(r, n);
    forall k, e | HasKey(view, key, k) && k !in Keys(t) && e in t
      ensures e.1 >= KeyTotal(view, key, k)
    {
      var j :| 0 <= j < |r| && r[j].0 == k;
      assert r[j] in r;
    }
  }

  lemma SubjectTypeChartFacts(view: seq<Record>)
    ensures |SubjectTypeChart(view)| <= 8
    ensures SubjectTypeChart(view) == Ranking(view, SubjectTypeKey)[..|SubjectTypeChart(view)|]
    ensures NonIncreasing(SubjectTypeChart(view)) && DistinctKeys(SubjectTypeChart(view))
  {
    TopChartFacts(view, SubjectTypeKey, SubjectTypeLimit);
  }

  /** "Trend Annuale" (line 58): one point per year of the view, by year. */
  function YearTrend(view: seq<Record>): (trend: seq<(int, int)>)
    ensures StrictlyAscendingKeys(trend)
    ensures Sum(trend) == Total(view)
  {
    ProjectFacts(view, YearKey);
    NothingOmitted(view, YearKey);
    GroupSumPartition(Project(view, YearKey));
    SortByKey(GroupSum(Project(view, YearKey)))
  }

  lemma {:induction false} YearTrendFacts(view: seq<Record>)
    ensures StrictlyAscendingKeys(YearTrend(view))
    ensures forall y :: y in Keys(YearTrend(view)) <==> exists i :: 0 <= i < |view| && view[i].year == y
    ensures forall e :: e in YearTrend(view) ==> e.1 == KeyTotal(view, YearKey, e.0)
    ensures Sum(YearTrend(view)) == Total(view)
  {
    var p := Project(view, YearKey);
    var g := GroupSum(p);
    var t := SortByKey(g);
    assert t == YearTrend(view);
    ProjectFacts(view, YearKey);
    NothingOmitted(view, YearKey);
    GroupSumPartition(p);
    TrendValues(p, g, t, view);
    YearKeys(view, Keys(p));
  }

  lemma TrendValues(p: seq<(int, int)>, g: seq<(int, int)>, t: seq<(int, int)>, view: seq<Record>)
    requires forall e :: e in g ==> e.1 == Amount(p, e.0)
    requires forall k :: Amount(p, k) == KeyTotal(view, YearKey, k)
    requires multiset(t) == multiset(g)
    ensures forall e :: e in t ==> e.1 == KeyTotal(view, YearKey, e.0)
  {
    forall e | e in t ensures e.1 == KeyTotal(view, YearKey, e.0) {
      assert e in multiset(t);
      assert e in g;
      assert e.1 == Amount(p, e.0);
      assert Amount(p, e.0) == KeyTotal(view, YearKey, e.0);
    }
  }

  lemma YearKeys(view: seq<Record>, ks: set<int>)
    requires forall k :: k in ks <==> HasKey(view, YearKey, k)
    ensures forall y :: y in ks <==> exists i :: 0 <= i < |view| && view[i].year == y
  {
    forall y ensures HasKey(view, YearKey, y) <==> exists i :: 0 <= i < |view| && view[i].year == y {
      if exists i :: 0 <= i < |view| && view[i].year == y {
        var i :| 0 <= i < |view| && view[i].year == y;
        assert YearKey(view[i]) == Some(y);
      }
    }
  }

  /** "Top 12 Beneficiari" (line 63). */
  function BeneficiaryChart(view: seq<Record>): (chart: seq<(string, int)>)
    ensures |chart| <= BeneficiaryLimit
    ensures NonIncreasing(chart) && DistinctKeys(chart)
    ensures forall e :: e in chart ==> e.1 == KeyTotal(view, BeneficiaryKey, e.0)
    ensures forall e :: e in chart ==> exists i :: 0 <= i < |view| && view[i].beneficiary == Some(e.0)
    ensures forall k, e :: HasKey(view, BeneficiaryKey, k) && k !in Keys(chart) && e in chart
              ==> e.1 >= KeyTotal(view, BeneficiaryKey, k)
  {
    TopChartFacts(view, BeneficiaryKey, BeneficiaryLimit);
    TopChartSelects(view, BeneficiaryKey, BeneficiaryLimit);
    TopN(Ranking(view, BeneficiaryKey), BeneficiaryLimit)
  }

  /** Total amount of the records with no beneficiary. */
  function UnnamedTotal(view: seq<Record>): int
  {
    if |view| == 0 then 0
    else (if view[0].beneficiary.None? then view[0].amount else 0) + UnnamedTotal(view[1..])
  }

  lemma {:induction false} OmittedUnnamed(view: seq<Record>)
    ensures Omitted(view, BeneficiaryKey) == UnnamedTotal(view)
  {
    if |view| > 0 {
      OmittedUnnamed(view[1..]);
    }
  }

  /** The beneficiary chart shows at most twelve named beneficiaries; the full
      ranking plus the records without a beneficiary make up the total. */
  lemma BeneficiaryChartFacts(view: seq<Record>)
    ensures |BeneficiaryChart(view)| <= 12
    ensures BeneficiaryChart(view) == Ranking(view, BeneficiaryKey)[..|BeneficiaryChart(view)|]
    ensures NonIncreasing(BeneficiaryChart(view)) && DistinctKeys(BeneficiaryChart(view))
    ensures Sum(Ranking(view, BeneficiaryKey)) + UnnamedTotal(view) == Total(view)
  {
    TopChartFacts(view, BeneficiaryKey, BeneficiaryLimit);
    RankingFacts(view, BeneficiaryKey);
    OmittedUnnamed(view);
  }

  /** The full region ranking of line 67, the sentinel region masked out. */
  function RegionRanking(view: seq<Record>): seq<(string, int)>
  {
    Ranking(view, AssignedRegionKey)
  }

  /** "Top 10 Regioni" (line 67). */
  function RegionChart(view: seq<Record>): (chart: seq<(string, int)>)
    ensures |chart| <= RegionLimit
    ensures NonIncreasing(chart)
    ensures forall e :: e in chart ==> e.0 != Unassigned && e.1 == KeyTotal(view, AssignedRegionKey, e.0)
    ensures forall e :: e in chart ==> exists i :: 0 <= i < |view| && view[i].region == e.0
    ensures forall k, e :: HasKey(view, AssignedRegionKey, k) && k !in Keys(chart) && e in chart
              ==> e.1 >= KeyTotal(view, AssignedRegionKey, k)
  {
    var t := TopN(RegionRanking(view), RegionLimit);
    TopChartFacts(view, AssignedRegionKey, RegionLimit);
    TopChartSelects(view, AssignedRegionKey, RegionLimit);
    forall e | e in t ensures e.0 != Unassigned && exists i :: 0 <= i < |view| && view[i].region == e.0 {
      RankedRegionLies(view, e.0);
    }
    t
  }

  /** A region that has a ranking key is not the sentinel and holds a record. */
  lemma RankedRegionLies(view: seq<Record>, g: string)
    requires HasKey(view, AssignedRegionKey, g)
    ensures g != Unassigned && exists i :: 0 <= i < |view| && view[i].region == g
  {
    var i :| 0 <= i < |view| && AssignedRegionKey(view[i]) == Some(g);
  }

  /** Total amount of the records whose region is the sentinel. */
  function UnassignedTotal(view: seq<Record>): int
  {
    if |view| == 0 then 0
    else (if view[0].region == Unassigned then view[0].amount else 0) + UnassignedTotal(view[1..])
  }

  lemma {:induction false} OmittedUnassigned(view: seq<Record>)
    ensures Omitted(view, AssignedRegionKey) == UnassignedTotal(view)
  {
    if |view| > 0 {
      OmittedUnassigned(view[1..]);
    }
  }

  /** The sentinel never appears among the regions; every other region of the
      view does; the sentinel's records make up exactly what the ranking
      misses of the total; the chart shows at most ten regions. */
  lemma {:induction false} RegionChartFacts(view: seq<Record>)
    ensures Unassigned !in Keys(RegionRanking(view))
    ensures forall g :: g in Keys(RegionRanking(view)) <==>
              g != Unassigned && exists i :: 0 <= i < |view| && view[i].region == g
    ensures Sum(RegionRanking(view)) + UnassignedTotal(view) == Total(view)
    ensures |RegionChart(view)| <= 10
    ensures RegionChart(view) == RegionRanking(view)[..|RegionChart(view)|]
    ensures NonIncreasing(RegionChart(view))
  {
    RankingFacts(view, AssignedRegionKey);
    TopChartFacts(view, AssignedRegionKey, RegionLimit);
    OmittedUnassigned(view);
    AssignedRegionKeys(view);
  }

  /** A region has a ranking key exactly when it is not the sentinel and some
      record of the view lies in it. */
  lemma AssignedRegionKeys(view: seq<Record>)
    ensures forall g :: HasKey(view, AssignedRegionKey, g) <==>
              g != Unassigned && exists i :: 0 <= i < |view| && view[i].region == g
  {
    forall g ensures HasKey(view, AssignedRegionKey, g) <==>
                     g != Unassigned && exists i :: 0 <= i < |view| && view[i].region == g {
      if g != Unassigned && exists i :: 0 <= i < |view| && view[i].region == g {
        var i :| 0 <= i < |view| && view[i].region == g;
        assert AssignedRegionKey(view[i]) == Some(g);
      }
    }
  }

  /** The distinct values of a column: pandas' `unique()`, where a missing
      value counts as one value of its own. */
  function Distinct<V>(values: seq<V>): set<V>
  {
    set v | v in values
  }

  lemma {:induction false} DistinctBound<V>(values: seq<V>)
    ensures |Distinct(values)| <= |values|
  {
    if |values| > 0 {
      DistinctBound(values[1..]);
      assert values == [values[0]] + values[1..];
      assert Distinct(values) == {values[0]} + Distinct(values[1..]);
    }
  }

  /** The beneficiary column, missing cells included. */
  function Beneficiaries(view: seq<Record>): (col: seq<Option<string>>)
    ensures |col| == |view|
    ensures forall i :: 0 <= i < |view| ==> col[i] == view[i].beneficiary
  {
    if |view| == 0 then [] else [view[0].beneficiary] + Beneficiaries(view[1..])
  }

  /** The sectors KPI (line 40): the distinct sectors of the view, one per
      entry of the sector chart. */
  function SectorCount(view: seq<Record>): (n: nat)
    ensures n == |SectorChart(view)|
  {
    var d := Distinct(Column(view, Sector));
    var r := SectorChart(view);
    SectorChartFacts(view);
    DistinctKeysCount(r);
    assert d == Keys(r) by {
      forall g ensures g in d <==> g in Keys(r) {
        InColumn(view, Sector, g);
      }
    }
    |d|
  }

  /** `filtrati[filtrati['Regione'] != 'Non assegnata']`. */
  function Assigned(view: seq<Record>): seq<Record>
  {
    if |view| == 0 then []
    else if view[0].region != Unassigned then [view[0]] + Assigned(view[1..])
    else Assigned(view[1..])
  }

  /** The regions KPI (line 41): the distinct regions other than the sentinel. */
  function RegionCount(view: seq<Record>): (n: nat)
    ensures n == |RegionRanking(view)|
    ensures n <= |Distinct(Column(view, Region))|
  {
    var d := Distinct(Column(Assigned(view), Region));
    var r := RegionRanking(view);
    RegionChartFacts(view);
    DistinctKeysCount(r);
    AssignedRegions(view);
    assert d == Keys(r) by {
      forall g ensures g in d <==> g in Keys(r) {
        InColumn(view, Region, g);
      }
    }
    SubsetCardinality(d, Distinct(Column(view, Region)));
    |d|
  }

  /** The regions of the masked view are the view's regions minus the sentinel. */
  lemma {:induction false} AssignedRegions(view: seq<Record>)
    ensures forall g :: g in Column(Assigned(view), Region) <==> g != Unassigned && g in Column(view, Region)
  {
    if |view| > 0 {
      AssignedRegions(view[1..]);
      var a := Assigned(view);
      if view[0].region != Unassigned {
        assert Column(a, Region) == [view[0].region] + Column(Assigned(view[1..]), Region) by {
          assert a[1..] == Assigned(view[1..]);
        }
      }
      assert Column(view, Region) == [view[0].region] + Column(view[1..], Region);
    }
  }

  lemma InColumn(view: seq<Record>, f: TextField, g: string)
    ensures g in Column(view, f) <==> exists i :: 0 <= i < |view| && Text(view[i], f) == g
  {
    var col := Column(view, f);
    if g in col {
      var i :| 0 <= i < |col| && col[i] == g;
      assert Text(view[i], f) == g;
    }
  }

  /** The regions KPI counts exactly the regions of the region ranking: never
      the sentinel, at most every distinct region of the view. */
  lemma {:induction false} RegionCountFacts(view: seq<Record>)
    ensures Unassigned !in Distinct(Column(Assigned(view), Region))
    ensures RegionCount(view) == |RegionRanking(view)|
    ensures RegionCount(view) <= |Distinct(Column(view, Region))|
  {
    AssignedRegions(view);
  }

  lemma SubsetCardinality<V>(a: set<V>, b: set<V>)
    requires a <= b
    ensures |a| <= |b|
  {
    assert b == a + (b - a);
  }

  /** The detail table and its caption "Mostrando N record su M totali". */
  datatype Detail = Detail(rows: seq<Record>, shown: nat, outOf: nat)

  /** Everything the page shows for one choice of filters. */
  datatype Summary = Summary(
    total: int,
    beneficiaries: nat,
    sectors: nat,
    regions: nat,
    bySector: seq<(string, int)>,
    bySubjectType: seq<(string, int)>,
    trend: seq<(int, int)>,
    topBeneficiaries: seq<(string, int)>,
    topRegions: seq<(string, int)>,
    detail: Option<Detail>)

  function Summarize(ds: seq<Record>, c: Criteria): (s: Summary)
    ensures s.total == MatchingTotal(ds, c)
    ensures s.detail.Some? <==> exists r :: r in ds && Matches(c, r)
    ensures s.detail.Some? ==> s.detail.value.shown <= s.detail.value.outOf == |ds|
    ensures s.detail.Some? ==>
              s.detail.value.rows == ApplyFilters(ds, c) && s.detail.value.shown == |ApplyFilters(ds, c)|
    ensures s.sectors == |s.bySector|
  {
    var view := ApplyFilters(ds, c);
    FilteredTotal(ds, c);
    assert |view| > 0 ==> view[0] in view;
    Summary(
      Total(view),
      |Distinct(Beneficiaries(view))|,
      SectorCount(view),
      RegionCount(view),
      SectorChart(view),
      SubjectTypeChart(view),
      YearTrend(view),
      BeneficiaryChart(view),
      RegionChart(view),
      if |view| > 0 then Some(Detail(view, |view|, |ds|)) else None)
  }

  /** The KPI row and the caption: the total is the sum over the matching
      records, the counts never exceed the number of rows shown, and the
      table appears exactly when some record matches. */
  lemma {:induction false} SummaryFacts(ds: seq<Record>, c: Criteria)
    ensures Summarize(ds, c).total == MatchingTotal(ds, c)
    ensures Summarize(ds, c).beneficiaries <= |ApplyFilters(ds, c)|
    ensures Summarize(ds, c).sectors <= |ApplyFilters(ds, c)|
    ensures Summarize(ds, c).regions <= |ApplyFilters(ds, c)|
    ensures Summarize(ds, c).detail.Some? <==> |ApplyFilters(ds, c)| > 0
    ensures Summarize(ds, c).detail.Some? ==>
              Summarize(ds, c).detail.value.rows == ApplyFilters(ds, c) &&
              0 < Summarize(ds, c).detail.value.shown <= Summarize(ds, c).detail.value.outOf == |ds| &&
              Summarize(ds, c).detail.value.shown == |Summarize(ds, c).detail.value.rows|
  {
    var view := ApplyFilters(ds, c);
    FilteredTotal(ds, c);
    FilterIsAnd(ds, c);
    DistinctBound(Beneficiaries(view));
    DistinctBound(Column(view, Sector));
    DistinctBound(Column(view, Region));
    RegionCountFacts(view);
  }

  /** No matching record is a normal state: every figure is zero or empty and
      the detail table is skipped. */
  lemma EmptyViewSummary(ds: seq<Record>, c: Criteria)
    requires ApplyFilters(ds, c) == []
    ensures Summarize(ds, c) == Summary(0, 0, 0, 0, [], [], [], [], [], None)
  {
    var view := ApplyFilters(ds, c);
    assert Distinct(Beneficiaries(view)) == {};
    assert Distinct(Column(view, Sector)) == {};
    assert Distinct(Column(Assigned(view), Region)) == {};
  }

  /** A non-empty search that no beneficiary contains empties every figure. */
  lemma {:induction false} SearchWithoutHits(ds: seq<Record>, c: Criteria)
    requires |c.search| > 0
    requires forall r :: r in ds ==> !Search.SearchHits(c.search, r.beneficiary)
    ensures Summarize(ds, c) == Summary(0, 0, 0, 0, [], [], [], [], [], None)
  {
    FilterIsAnd(ds, c);
    EmptyViewSummary(ds, c);
  }
}

=== FILE: filter.dfy ===
/** The sidebar filter of app.py lines 24-34: the dataset is narrowed by up
    to five predicates, one after the other, each applied only when its
    widget is away from its "all" value. */
module Filter {
  import opened Records
  import opened Search
  import opened FilterOptions

  /** The widget values as the script reads them: the two sentinels
      `AllSectors`/`AllSubjectTypes` ("TUTTI") and `AllRegions` ("TUTTE"),
      `None` for every year, and the empty string for no search. */
  datatype Criteria = Criteria(
    sector: string,
    subjectType: string,
    region: string,
    year: Option<int>,
    search: string)

  const NoCriteria: Criteria := Criteria(AllSectors, AllSubjectTypes, AllRegions, None, "")

  /** One boolean mask of the chain. */
  datatype Pred = FieldIs(field: TextField, value: string) | YearIs(year: int) | Mentions(text: string)

  predicate Holds(p: Pred, r: Record)
  {
    match p
    case FieldIs(f, v) => Text(r, f) == v
    case YearIs(y) => r.year == y
    case Mentions(t) => SearchHits(t, r.beneficiary)
  }

  /** `view[mask]`: the records satisfying `p`, in their original order. */
  function Select(view: seq<Record>, p: Pred): (v: seq<Record>)
    ensures |v| <= |view|
    ensures forall r :: r in v <==> r in view && Holds(p, r)
  {
    if |view| == 0 then []
    else if Holds(p, view[0]) then [view[0]] + Select(view[1..], p)
    else Select(view[1..], p)
  }

  /** The filter block as written: each stage runs only when its widget is
      set, and narrows the result of the stage before it. A record survives
      exactly when it is in the dataset and meets the reference criteria. */
  function ApplyFilters(ds: seq<Record>, c: Criteria): (view: seq<Record>)
    ensures |view| <= |ds|
    ensures forall r :: r in view <==> r in ds && Matches(c, r)
  {
    var v0 := ds;
    var v1 := if c.sector != AllSectors then Select(v0, FieldIs(Sector, c.sector)) else v0;
    var v2 := if c.subjectType != AllSubjectTypes then Select(v1, FieldIs(SubjectType, c.subjectType)) else v1;
    var v3 := if c.region != AllRegions then Select(v2, FieldIs(Region, c.region)) else v2;
    var v4 := if c.year.Some? then Select(v3, YearIs(c.year.value)) else v3;
    var v5 := if |c.search| > 0 then Select(v4, Mentions(c.search)) else v4;
    v5
  }

  /** Reference reading of the criteria: a record is wanted when every
      widget is either at its "all" value or agrees with the record. */
  predicate Matches(c: Criteria, r: Record)
  {
    && (c.sector == AllSectors || r.sector == c.sector)
    && (c.subjectType == AllSubjectTypes || r.subjectType == c.subjectType)
    && (c.region == AllRegions || r.region == c.region)
    && (c.year.None? || r.year == c.year.value)
    && (c.search == "" || SearchHits(c.search, r.beneficiary))
  }

  /** The masks the script applies for `c`, in the script's order. */
  function Active(c: Criteria): seq<Pred>
  {
    (if c.sector != AllSectors then [FieldIs(Sector, c.sector)] else []) +
    (if c.subjectType != AllSubjectTypes then [FieldIs(SubjectType, c.subjectType)] else []) +
    (if c.region != AllRegions then [FieldIs(Region, c.region)] else []) +
    (if c.year.Some? then [YearIs(c.year.value)] else []) +
    (if |c.search| > 0 then [Mentions(c.search)] else [])
  }

  predicate AllHold(ps: seq<Pred>, r: Record)
  {
    forall p :: p in ps ==> Holds(p, r)
  }

  /** Applying the masks `ps` one after another. */
  function Chain(view: seq<Record>, ps: seq<Pred>): seq<Record>
    decreases |ps|
  {
    if |ps| == 0 then view else Chain(Select(view, ps[0]), ps[1..])
  }

  /** The single-pass reference: keep a record iff every mask of `ps` holds. */
  function Keep(view: seq<Record>, ps: seq<Pred>): seq<Record>
  {
    if |view| == 0 then []
    else if AllHold(ps, view[0]) then [view[0]] + Keep(view[1..], ps)
    else Keep(view[1..], ps)
  }

  lemma AllHoldConcat(ps: seq<Pred>, qs: seq<Pred>, r: Record)
    ensures AllHold(ps + qs, r) <==> AllHold(ps, r) && AllHold(qs, r)
  {
    assert forall p :: p in ps + qs <==> p in ps || p in qs;
  }

  lemma MatchesIffActiveHold(c: Criteria, r: Record)
    ensures Matches(c, r) <==> AllHold(Active(c), r)
  {
    var a := if c.sector != AllSectors then [FieldIs(Sector, c.sector)] else [];
    var b := if c.subjectType != AllSubjectTypes then [FieldIs(SubjectType, c.subjectType)] else [];
    var d := if c.region != AllRegions then [FieldIs(Region, c.region)] else [];
    var y := if c.year.Some? then [YearIs(c.year.value)] else [];
    var s := if |c.search| > 0 then [Mentions(c.search)] else [];
    assert Active(c) == a + (b + (d + (y + s)));
    AllHoldConcat(a, b + (d + (y + s)), r);
    AllHoldConcat(b, d + (y + s), r);
    AllHoldConcat(d, y + s, r);
    AllHoldConcat(y, s, r);
    AllHoldOne(a, r);
    AllHoldOne(b, r);
    AllHoldOne(d, r);
    AllHoldOne(y, r);
    AllHoldOne(s, r);
  }

  lemma AllHoldOne(ps: seq<Pred>, r: Record)
    requires |ps| <= 1
    ensures AllHold(ps, r) <==> |ps| == 0 || Holds(ps[0], r)
  {
    if |ps| == 1 {
      assert forall p :: p in ps <==> p == ps[0];
    }
  }

  lemma {:induction false} KeepSelect(view: seq<Record>, p: Pred, ps: seq<Pred>)
    ensures Keep(Select(view, p), ps) == Keep(view, [p] + ps)
  {
    if |view| > 0 {
      KeepSelect(view[1..], p, ps);
      assert AllHold([p] + ps, view[0]) <==> Holds(p, view[0]) && AllHold(ps, view[0]);
    }
  }

  lemma {:induction false} KeepNothing(view: seq<Record>)
    ensures Keep(view, []) == view
  {
    if |view| > 0 {
      KeepNothing(view[1..]);
    }
  }

  /** Running the masks one by one gives the single-pass result. */
  lemma {:induction false} ChainIsKeep(view: seq<Record>, ps: seq<Pred>)
    ensures Chain(view, ps) == Keep(view, ps)
    decreases |ps|
  {
    if |ps| == 0 {
      KeepNothing(view);
    } else {
      ChainIsKeep(Select(view, ps[0]), ps[1..]);
      KeepSelect(view, ps[0], ps[1..]);
      assert [ps[0]] + ps[1..] == ps;
    }
  }

  lemma {:induction false} ApplyFiltersIsChain(ds: seq<Record>, c: Criteria)
    ensures ApplyFilters(ds, c) == Chain(ds, Active(c))
  {
    var a := if c.sector != AllSectors then [FieldIs(Sector, c.sector)] else [];
    var b := if c.subjectType != AllSubjectTypes then [FieldIs(SubjectType, c.subjectType)] else [];
    var d := if c.region != AllRegions then [FieldIs(Region, c.region)] else [];
    var y := if c.year.Some? then [YearIs(c.year.value)] else [];
    var s := if |c.search| > 0 then [Mentions(c.search)] else [];
    assert Active(c) == a + (b + (d + (y + s)));
    ChainConcat(ds, a, b + (d + (y + s)));
    var v1 := Chain(ds, a);
    ChainConcat(v1, b, d + (y + s));
    var v2 := Chain(v1, b);
    ChainConcat(v2, d, y + s);
    var v3 := Chain(v2, d);
    ChainConcat(v3, y, s);
  }

  lemma {:induction false} ChainConcat(view: seq<Record>, ps: seq<Pred>, qs: seq<Pred>)
    ensures Chain(view, ps + qs) == Chain(Chain(view, ps), qs)
    decreases |ps|
  {
    if |ps| == 0 {
      assert ps + qs == qs;
    } else {
      assert (ps + qs)[0] == ps[0] && (ps + qs)[1..] == ps[1..] + qs;
      ChainConcat(Select(view, ps[0]), ps[1..], qs);
    }
  }

  /** Reference filter: the records of `ds` that match `c`, in order. */
  function Where(ds: seq<Record>, c: Criteria): seq<Record>
  {
    if |ds| == 0 then []
    else if Matches(c, ds[0]) then [ds[0]] + Where(ds[1..], c)
    else Where(ds[1..], c)
  }

  lemma {:induction false} KeepActiveIsWhere(ds: seq<Record>, c: Criteria)
    ensures Keep(ds, Active(c)) == Where(ds, c)
  {
    if |ds| > 0 {
      MatchesIffActiveHold(c, ds[0]);
      KeepActiveIsWhere(ds[1..], c);
    }
  }

  /** The staged filter equals the one-pass AND of the criteria. */
  lemma {:induction false} ApplyFiltersIsWhere(ds: seq<Record>, c: Criteria)
    ensures ApplyFilters(ds, c) == Where(ds, c)
  {
    ApplyFiltersIsChain(ds, c);
    ChainIsKeep(ds, Active(c));
    KeepActiveIsWhere(ds, c);
  }

  lemma {:induction false} WhereProperties(ds: seq<Record>, c: Criteria)
    ensures |Where(ds, c)| <= |ds|
    ensures IsSubsequence(Where(ds, c), ds)
    ensures forall r :: multiset(Where(ds, c))[r] == if Matches(c, r) then multiset(ds)[r] else 0
  {
    if |ds| > 0 {
      WhereProperties(ds[1..], c);
      assert ds == [ds[0]] + ds[1..];
      assert multiset(ds) == multiset{ds[0]} + multiset(ds[1..]);
      if Matches(c, ds[0]) {
        var w := Where(ds, c);
        assert w[0] == ds[0] && w[1..] == Where(ds[1..], c);
      } else {
        SubsequenceDropHead(Where(ds, c), ds);
      }
    }
  }

  lemma SubsequenceDropHead<T>(a: seq<T>, b: seq<T>)
    requires |b| > 0 && IsSubsequence(a, b[1..])
    ensures IsSubsequence(a, b)
  {
  }

  /** AND semantics: the view holds each record of the dataset that satisfies
      every active predicate, as many times as the dataset does, in the
      dataset's order, and nothing else. */
  lemma {:induction false} FilterIsAnd(ds: seq<Record>, c: Criteria)
    ensures forall r :: r in ApplyFilters(ds, c) <==> r in ds && Matches(c, r)
    ensures forall r :: multiset(ApplyFilters(ds, c))[r] == if Matches(c, r) then multiset(ds)[r] else 0
    ensures IsSubsequence(ApplyFilters(ds, c), ds)
    ensures |ApplyFilters(ds, c)| <= |ds|
  {
    ApplyFiltersIsWhere(ds, c);
    WhereProperties(ds, c);
    forall r
      ensures r in ApplyFilters(ds, c) <==> r in ds && Matches(c, r)
    {
      assert r in ApplyFilters(ds, c) <==> multiset(ApplyFilters(ds, c))[r] > 0;
      assert r in ds <==> multiset(ds)[r] > 0;
    }
  }

  /** With every widget at its "all" value no mask is applied. */
  lemma NoCriteriaKeepsAll(ds: seq<Record>)
    ensures ApplyFilters(ds, NoCriteria) == ds
  {
  }

  /** The view is the whole dataset exactly when every record matches. */
  lemma {:induction false} WholeDatasetIff(ds: seq<Record>, c: Criteria)
    ensures ApplyFilters(ds, c) == ds <==> forall i :: 0 <= i < |ds| ==> Matches(c, ds[i])
  {
    ApplyFiltersIsWhere(ds, c);
    if forall i :: 0 <= i < |ds| ==> Matches(c, ds[i]) {
      WhereAllMatch(ds, c);
    }
    if Where(ds, c) == ds {
      FilterIsAnd(ds, c);
      forall i | 0 <= i < |ds| ensures Matches(c, ds[i]) {
        assert ds[i] in ApplyFilters(ds, c);
      }
    }
  }

  lemma {:induction false} WhereAllMatch(ds: seq<Record>, c: Criteria)
    requires forall i :: 0 <= i < |ds| ==> Matches(c, ds[i])
    ensures Where(ds, c) == ds
  {
    if |ds| > 0 {
      assert Matches(c, ds[0]);
      assert forall i :: 0 <= i < |ds[1..]| ==> ds[1..][i] == ds[i + 1];
      WhereAllMatch(ds[1..], c);
    }
  }

  lemma {:induction false} WhereTwice(ds: seq<Record>, c: Criteria)
    ensures Where(Where(ds, c), c) == Where(ds, c)
  {
    if |ds| > 0 {
      WhereTwice(ds[1..], c);
      if Matches(c, ds[0]) {
        var w := Where(ds, c);
        assert w[0] == ds[0] && w[1..] == Where(ds[1..], c);
      }
    }
  }

  /** Filtering an already filtered view with the same criteria changes nothing. */
  lemma {:induction false} FilterIdempotent(ds: seq<Record>, c: Criteria)
    ensures ApplyFilters(ApplyFilters(ds, c), c) == ApplyFilters(ds, c)
  {
    ApplyFiltersIsWhere(ds, c);
    ApplyFiltersIsWhere(Where(ds, c), c);
    WhereTwice(ds, c);
  }

  lemma {:induction false} KeepSameMasks(view: seq<Record>, ps: seq<Pred>, qs: seq<Pred>)
    requires forall p :: p in ps <==> p in qs
    ensures Keep(view, ps) == Keep(view, qs)
  {
    if |view| > 0 {
      KeepSameMasks(view[1..], ps, qs);
    }
  }

  /** The order of the masks, and repeating one, do not change the view. */
  lemma {:induction false} ChainOrderIrrelevant(view: seq<Record>, ps: seq<Pred>, qs: seq<Pred>)
    requires forall p :: p in ps <==> p in qs
    ensures Chain(view, ps) == Chain(view, qs)
  {
    ChainIsKeep(view, ps);
    ChainIsKeep(view, qs);
    KeepSameMasks(view, ps, qs);
  }

  /** Any two stages commute. */
  lemma SelectCommutes(view: seq<Record>, p: Pred, q: Pred)
    ensures Select(Select(view, p), q) == Select(Select(view, q), p)
  {
    ChainOrderIrrelevant(view, [p, q], [q, p]);
    assert [p, q][1..] == [q] && [q, p][1..] == [p];
  }

  /** A widget value the data does not contain (one not offered, say) yields an
      empty view rather than an error. */
  lemma {:induction false} UnknownSectorEmpties(ds: seq<Record>, c: Criteria)
    requires c.sector != AllSectors
    requires forall i :: 0 <= i < |ds| ==> ds[i].sector != c.sector
    ensures ApplyFilters(ds, c) == []
  {
    FilterIsAnd(ds, c);
  }

  /** A non-empty search never keeps a record with a missing beneficiary, and
      keeps a named one only when the text occurs in it up to letter case. */
  lemma {:induction false} SearchKeeps(ds: seq<Record>, c: Criteria, r: Record)
    requires |c.search| > 0
    requires r in ApplyFilters(ds, c)
    ensures r.beneficiary.Some?
    ensures exists i :: OccursIgnoringCaseAt(r.beneficiary.value, c.search, i)
  {
    FilterIsAnd(ds, c);
  }

  /** The option list each text selector offers. */
  function OptionsFor(ds: seq<Record>, f: TextField): seq<string>
  {
    match f
    case Sector => SectorOptions(ds)
    case SubjectType => SubjectTypeOptions(ds)
    case Region => RegionOptions(ds)
  }

  /** The criteria with only the selector of `f` set, to `v`. */
  function Choose(f: TextField, v: string): Criteria
  {
    match f
    case Sector => NoCriteria.(sector := v)
    case SubjectType => NoCriteria.(subjectType := v)
    case Region => NoCriteria.(region := v)
  }

  /** Every value a text selector offers selects at least one record on its
      own; a value literally named like the sentinel selects the whole
      dataset, which is not empty either. */
  lemma {:induction false} OfferedValueSelects(ds: seq<Record>, f: TextField, v: string)
    requires v in OptionsFor(ds, f)[1..]
    ensures |ApplyFilters(ds, Choose(f, v))| > 0
  {
    var c := Choose(f, v);
    var i :| 0 <= i < |ds| && Text(ds[i], f) == v;
    assert Matches(c, ds[i]);
    assert ds[i] in ApplyFilters(ds, c);
  }

  /** Unlike the text selectors, the year selector offers fixed years: one
      that no record carries is still offered, and choosing it empties the
      view. */
  lemma {:induction false} OfferedYearMaySelectNothing(ds: seq<Record>)
    requires forall i :: 0 <= i < |ds| ==> ds[i].year != 2027
    ensures Some(2027) in YearOptions
    ensures ApplyFilters(ds, NoCriteria.(year := Some(2027))) == []
  {
    FilterIsAnd(ds, NoCriteria.(year := Some(2027)));
  }

  /** Direct reference total: the amounts of the matching records, summed in
      one pass over the dataset. */
  function MatchingTotal(ds: seq<Record>, c: Criteria): int
  {
    if |ds| == 0 then 0
    else (if Matches(c, ds[0]) then ds[0].amount else 0) + MatchingTotal(ds[1..], c)
  }

  lemma {:induction false} FilteredTotal(ds: seq<Record>, c: Criteria)
    ensures Total(ApplyFilters(ds, c)) == MatchingTotal(ds, c)
  {
    ApplyFiltersIsWhere(ds, c);
    WhereTotal(ds, c);
  }

  lemma {:induction false} WhereTotal(ds: seq<Record>, c: Criteria)
    ensures Total(Where(ds, c)) == MatchingTotal(ds, c)
  {
    if |ds| > 0 {
      WhereTotal(ds[1..], c);
      if Matches(c, ds[0]) {
        assert Where(ds, c)[1..] == Where(ds[1..], c);
      }
    }
  }
}

=== FILE: grouping.dfy ===
/** Group-by-sum, ordering and truncation over (key, amount) pairs: the
    `groupby(key)['Importo'].sum()`, `sort_values`/`sort_index` and `head(n)`
    steps of the dashboard's charts. */
module Grouping {

  /** Sum of the amounts of a list of pairs. */
  function Sum<K>(s: seq<(K, int)>): int
  {
    if |s| == 0 then 0 else s[0].1 + Sum(s[1..])
  }

  /** Sum of the amounts carried by key `k`. */
  function Amount<K(==,!new)>(s: seq<(K, int)>, k: K): int
  {
    if |s| == 0 then 0
    else (if s[0].0 == k then s[0].1 else 0) + Amount(s[1..], k)
  }

  function Keys<K>(s: seq<(K, int)>): set<K>
  {
    set i | 0 <= i < |s| :: s[i].0
  }

  predicate DistinctKeys<K(==,!new)>(s: seq<(K, int)>)
  {
    forall i, j :: 0 <= i < j < |s| ==> s[i].0 != s[j].0
  }

  lemma KeysTail<K(!new)>(s: seq<(K, int)>)
    requires |s| > 0
    ensures Keys(s) == {s[0].0} + Keys(s[1..])
  {
    forall k | k in Keys(s) ensures k in {s[0].0} + Keys(s[1..]) {
      var i :| 0 <= i < |s| && s[i].0 == k;
      if i > 0 {
        assert s[1..][i - 1].0 == k;
      }
    }
    forall k | k in Keys(s[1..]) ensures k in Keys(s) {
      var i :| 0 <= i < |s[1..]| && s[1..][i].0 == k;
      assert s[i + 1].0 == k;
    }
  }

  lemma {:induction false} AmountOfAbsentKey<K(!new)>(s: seq<(K, int)>, k: K)
    requires k !in Keys(s)
    ensures Amount(s, k) == 0
  {
    if |s| > 0 {
      KeysTail(s);
      AmountOfAbsentKey(s[1..], k);
    }
  }

  /** In a list with distinct keys, the amount of a key is its one entry's value. */
  lemma {:induction false} AmountOfDistinct<K(!new)>(s: seq<(K, int)>, i: int)
    requires DistinctKeys(s) && 0 <= i < |s|
    ensures Amount(s, s[i].0) == s[i].1
  {
    KeysTail(s);
    if i == 0 {
      HeadKeyUnique(s);
      AmountOfAbsentKey(s[1..], s[0].0);
    } else {
      AmountOfDistinct(s[1..], i - 1);
    }
  }

  /** A list with distinct keys has one entry per key. */
  lemma {:induction false} DistinctKeysCount<K(!new)>(s: seq<(K, int)>)
    requires DistinctKeys(s)
    ensures |Keys(s)| == |s|
  {
    if |s| > 0 {
      KeysTail(s);
      DistinctKeysCount(s[1..]);
      HeadKeyUnique(s);
    }
  }

  /** Adds one pair to a grouped list: onto its key's entry when there is one,
      as a new last entry otherwise. */
  function Accumulate<K(==,!new)>(g: seq<(K, int)>, e: (K, int)): (r: seq<(K, int)>)
    requires DistinctKeys(g)
    ensures DistinctKeys(r)
    ensures Keys(r) == Keys(g) + {e.0}
  {
    if |g| == 0 then
      KeysTail([e]);
      [e]
    else
      KeysTail(g);
      if g[0].0 == e.0 then
        var r := [(e.0, g[0].1 + e.1)] + g[1..];
        assert r[1..] == g[1..];
        KeysTail(r);
        r
      else
        var rest := Accumulate(g[1..], e);
        var r := [g[0]] + rest;
        assert r[1..] == rest;
        KeysTail(r);
        r
  }

  /** Accumulating adds the pair's amount to the total. */
  lemma {:induction false} AccumulateSum<K(!new)>(g: seq<(K, int)>, e: (K, int))
    requires DistinctKeys(g)
    ensures Sum(Accumulate(g, e)) == Sum(g) + e.1
  {
    var r := Accumulate(g, e);
    if |g| > 0 && g[0].0 != e.0 {
      assert r[1..] == Accumulate(g[1..], e);
      AccumulateSum(g[1..], e);
    } else if |g| > 0 {
      assert r[1..] == g[1..];
    }
  }

  /** Accumulating adds the pair's amount to its own key and to no other. */
  lemma {:induction false} AccumulateAmount<K(!new)>(g: seq<(K, int)>, e: (K, int), k: K)
    requires DistinctKeys(g)
    ensures Amount(Accumulate(g, e), k) == Amount(g, k) + (if k == e.0 then e.1 else 0)
  {
    var r := Accumulate(g, e);
    if |g| > 0 && g[0].0 != e.0 {
      assert r[1..] == Accumulate(g[1..], e);
      AccumulateAmount(g[1..], e, k);
    } else if |g| > 0 {
      assert r[1..] == g[1..];
    }
  }

  /** Folds the pairs of `s` into the grouped list `acc`. */
  function GroupInto<K(==,!new)>(acc: seq<(K, int)>, s: seq<(K, int)>): (r: seq<(K, int)>)
    requires DistinctKeys(acc)
    ensures DistinctKeys(r)
    ensures Keys(r) == Keys(acc) + Keys(s)
    ensures Sum(r) == Sum(acc) + Sum(s)
    ensures forall k :: Amount(r, k) == Amount(acc, k) + Amount(s, k)
    decreases |s|
  {
    if |s| == 0 then
      assert Keys(s) == {};
      acc
    else
      KeysTail(s);
      AccumulateSum(acc, s[0]);
      assert forall k :: Amount(Accumulate(acc, s[0]), k) == Amount(acc, k) + (if k == s[0].0 then s[0].1 else 0) by {
        forall k { AccumulateAmount(acc, s[0], k); }
      }
      GroupInto(Accumulate(acc, s[0]), s[1..])
  }

  /** `groupby(key).sum()`: one entry per key of `s`, carrying the sum of
      that key's amounts. pandas orders the groups by key; the model keeps
      them in order of first appearance instead, a choice that only the order
      of equal amounts after ranking can reveal. */
  function GroupSum<K(==,!new)>(s: seq<(K, int)>): (g: seq<(K, int)>)
    ensures DistinctKeys(g)
    ensures Keys(g) == Keys(s)
    ensures forall k :: Amount(g, k) == Amount(s, k)
  {
    var empty: seq<(K, int)> := [];
    assert Keys(empty) == {};
    GroupInto(empty, s)
  }

  /** Partition property: every pair lands in exactly one group, so the groups
      add up to the total; each group's value is its key's total; there is one
      group per distinct key. */
  lemma {:induction false} GroupSumPartition<K(!new)>(s: seq<(K, int)>)
    ensures Sum(GroupSum(s)) == Sum(s)
    ensures forall e :: e in GroupSum(s) ==> e.0 in Keys(s) && e.1 == Amount(s, e.0)
    ensures |GroupSum(s)| == |Keys(s)|
  {
    var g := GroupSum(s);
    forall e | e in g ensures e.0 in Keys(s) && e.1 == Amount(s, e.0) {
      var i :| 0 <= i < |g| && g[i] == e;
      AmountOfDistinct(g, i);
    }
    DistinctKeysCount(g);
  }

  /** The key of a list's first entry does not recur later in it. */
  lemma HeadKeyUnique<K(!new)>(s: seq<(K, int)>)
    requires |s| > 0 && DistinctKeys(s)
    ensures s[0].0 !in Keys(s[1..])
  {
    forall j | 0 <= j < |s[1..]| ensures s[1..][j].0 != s[0].0 {
      assert s[1..][j] == s[j + 1];
    }
  }

  predicate SortedBy<K>(s: seq<(K, int)>, score: ((K, int)) -> int)
  {
    forall i, j :: 0 <= i < j < |s| ==> score(s[i]) <= score(s[j])
  }

  /** Stable insertion of `e` into a list ordered by ascending `score`:
      `e` goes before the first entry that does not score below it. */
  function InsertBy<K(==,!new)>(e: (K, int), s: seq<(K, int)>, score: ((K, int)) -> int): (r: seq<(K, int)>)
    requires SortedBy(s, score)
    ensures SortedBy(r, score)
    ensures multiset(r) == multiset(s) + multiset{e}
  {
    if |s| == 0 then [e]
    else if score(e) <= score(s[0]) then [e] + s
    else
      var rest := InsertBy(e, s[1..], score);
      HeadScoresLowest(s[0], e, s[1..], rest, score);
      assert s == [s[0]] + s[1..];
      [s[0]] + rest
  }

  lemma HeadScoresLowest<K(!new)>(h: (K, int), e: (K, int), tail: seq<(K, int)>, rest: seq<(K, int)>, score: ((K, int)) -> int)
    requires score(h) <= score(e)
    requires forall j :: 0 <= j < |tail| ==> score(h) <= score(tail[j])
    requires multiset(rest) == multiset(tail) + multiset{e}
    ensures forall j :: 0 <= j < |rest| ==> score(h) <= score(rest[j])
  {
    forall j | 0 <= j < |rest| ensures score(h) <= score(rest[j]) {
      assert rest[j] in multiset(rest);
      if rest[j] != e {
        assert rest[j] in multiset(tail);
      }
    }
  }

  /** Two lists holding the same entries have the same keys. */
  lemma PermutationKeys<K(!new)>(a: seq<(K, int)>, b: seq<(K, int)>)
    requires multiset(a) == multiset(b)
    ensures Keys(a) == Keys(b)
  {
    forall k | k in Keys(a) ensures k in Keys(b) {
      var i :| 0 <= i < |a| && a[i].0 == k;
      assert a[i] in multiset(b);
      var j :| 0 <= j < |b| && b[j] == a[i];
    }
    forall k | k in Keys(b) ensures k in Keys(a) {
      var i :| 0 <= i < |b| && b[i].0 == k;
      assert b[i] in multiset(a);
      var j :| 0 <= j < |a| && a[j] == b[i];
    }
  }

  lemma {:induction false} InsertBySum<K(!new)>(e: (K, int), s: seq<(K, int)>, score: ((K, int)) -> int)
    requires SortedBy(s, score)
    ensures Sum(InsertBy(e, s, score)) == Sum(s) + e.1
  {
    if |s| > 0 && score(e) > score(s[0]) {
      InsertBySum(e, s[1..], score);
      var r := InsertBy(e, s, score);
      assert r[1..] == InsertBy(e, s[1..], score);
    }
  }

  lemma {:induction false} InsertByDistinct<K(!new)>(e: (K, int), s: seq<(K, int)>, score: ((K, int)) -> int)
    requires SortedBy(s, score)
    requires DistinctKeys(s) && e.0 !in Keys(s)
    ensures DistinctKeys(InsertBy(e, s, score))
  {
    var r := InsertBy(e, s, score);
    if |s| == 0 {
    } else if score(e) <= score(s[0]) {
      assert r[1..] == s;
      forall j | 0 <= j < |s| ensures s[j].0 != e.0 {
        assert s[j].0 in Keys(s);
      }
    } else {
      KeysTail(s);
      HeadKeyUnique(s);
      InsertByDistinct(e, s[1..], score);
      var rest := InsertBy(e, s[1..], score);
      assert r[1..] == rest;
      PermutationKeys(rest, s[1..] + [e]);
      assert multiset(s[1..] + [e]) == multiset(s[1..]) + multiset{e};
      KeysAppend(s[1..], e);
      forall j | 0 <= j < |rest| ensures rest[j].0 != s[0].0 {
        assert rest[j].0 in Keys(rest);
      }
    }
  }

  lemma KeysAppend<K(!new)>(s: seq<(K, int)>, e: (K, int))
    ensures Keys(s + [e]) == Keys(s) + {e.0}
  {
    assert (s + [e])[|s|] == e;
    forall k | k in Keys(s) ensures k in Keys(s + [e]) {
      var i :| 0 <= i < |s| && s[i].0 == k;
      assert (s + [e])[i] == s[i];
    }
  }

  /** A stable insertion sort of `g` by ascending `score`. */
  function SortBy<K(==,!new)>(g: seq<(K, int)>, score: ((K, int)) -> int): (r: seq<(K, int)>)
    ensures SortedBy(r, score)
    ensures multiset(r) == multiset(g)
  {
    if |g| == 0 then []
    else
      assert g == [g[0]] + g[1..];
      InsertBy(g[0], SortBy(g[1..], score), score)
  }

  lemma {:induction false} SortBySum<K(!new)>(g: seq<(K, int)>, score: ((K, int)) -> int)
    ensures Sum(SortBy(g, score)) == Sum(g)
  {
    if |g| > 0 {
      SortBySum(g[1..], score);
      InsertBySum(g[0], SortBy(g[1..], score), score);
    }
  }

  lemma {:induction false} SortByDistinct<K(!new)>(g: seq<(K, int)>, score: ((K, int)) -> int)
    ensures DistinctKeys(g) ==> DistinctKeys(SortBy(g, score))
  {
    if |g| > 0 && DistinctKeys(g) {
      assert DistinctKeys(g[1..]);
      var rest := SortBy(g[1..], score);
      SortByDistinct(g[1..], score);
      HeadKeyUnique(g);
      PermutationKeys(rest, g[1..]);
      InsertByDistinct(g[0], rest, score);
    }
  }

  predicate NonIncreasing<K>(s: seq<(K, int)>)
  {
    forall i, j :: 0 <= i < j < |s| ==> s[i].1 >= s[j].1
  }

  function Descending<K>(e: (K, int)): int
  {
    -e.1
  }

  /** `sort_values(ascending=False)`: the groups by non-increasing amount;
      equal amounts keep their incoming order. */
  function Rank<K(==,!new)>(g: seq<(K, int)>): (r: seq<(K, int)>)
    ensures NonIncreasing(r)
    ensures multiset(r) == multiset(g)
    ensures Keys(r) == Keys(g)
    ensures Sum(r) == Sum(g)
    ensures DistinctKeys(g) ==> DistinctKeys(r)
  {
    var r := SortBy(g, Descending);
    PermutationKeys(r, g);
    SortBySum(g, Descending);
    SortByDistinct(g, Descending);
    r
  }

  function YearOf(e: (int, int)): int
  {
    e.0
  }

  predicate StrictlyAscendingKeys(s: seq<(int, int)>)
  {
    forall i, j :: 0 <= i < j < |s| ==> s[i].0 < s[j].0
  }

  lemma DistinctAscending(r: seq<(int, int)>)
    requires SortedBy(r, YearOf) && DistinctKeys(r)
    ensures StrictlyAscendingKeys(r)
  {
    forall i, j | 0 <= i < j < |r| ensures r[i].0 < r[j].0 {
      assert YearOf(r[i]) <= YearOf(r[j]);
    }
  }

  /** `sort_index()` on groups with distinct integer keys: strictly ascending. */
  function SortByKey(g: seq<(int, int)>): (r: seq<(int, int)>)
    requires DistinctKeys(g)
    ensures StrictlyAscendingKeys(r)
    ensures multiset(r) == multiset(g)
    ensures Keys(r) == Keys(g)
    ensures Sum(r) == Sum(g)
  {
    var r := SortBy(g, YearOf);
    PermutationKeys(r, g);
    SortBySum(g, YearOf);
    SortByDistinct(g, YearOf);
    DistinctAscending(r);
    r
  }

  /** `head(n)`: the first `n` entries, or all of them when there are fewer. */
  function TopN<K>(r: seq<(K, int)>, n: nat): (t: seq<(K, int)>)
    ensures |t| <= n && |t| <= |r|
    ensures |r| >= n ==> |t| == n
    ensures |r| <= n ==> t == r
    ensures forall i :: 0 <= i < |t| ==> t[i] == r[i]
  {
    if |r| <= n then r else r[..n]
  }

  /** A truncated ranking is still ordered, and no entry left out of it
      carries more than an entry shown in it. */
  /** `head(n)` of a list with distinct keys shows n of its keys, or all of
      them when there are fewer, and only entries of the list. */
  lemma {:induction false} TopKeys<K(!new)>(r: seq<(K, int)>, n: nat)
    requires DistinctKeys(r)
    ensures |TopN(r, n)| == if |Keys(r)| <= n then |Keys(r)| else n
    ensures forall e :: e in TopN(r, n) ==> e in r && e.0 in Keys(r)
  {
    DistinctKeysCount(r);
    var t := TopN(r, n);
    forall e | e in t ensures e in r && e.0 in Keys(r) {
      var i :| 0 <= i < |t| && t[i] == e;
      assert r[i] == e;
    }
  }

  /** Whatever `head(n)` of a ranking leaves out carries no more than any
      entry it keeps. */
  lemma {:induction false} TopLeavesOutSmaller<K(!new)>(r: seq<(K, int)>, n: nat)
    requires NonIncreasing(r)
    ensures forall e, f :: e in TopN(r, n) && f in r && f.0 !in Keys(TopN(r, n)) ==> e.1 >= f.1
  {
    var t := TopN(r, n);
    TopOfRanking(r, n);
    assert forall m :: 0 <= m < |t| ==> t[m].0 in Keys(t);
    forall e, f | e in t && f in r && f.0 !in Keys(t) ensures e.1 >= f.1 {
      var i :| 0 <= i < |t| && t[i] == e;
      var j :| 0 <= j < |r| && r[j] == f;
    }
  }

  lemma TopOfRanking<K(!new)>(r: seq<(K, int)>, n: nat)
    requires NonIncreasing(r)
    ensures NonIncreasing(TopN(r, n))
    ensures forall i, j :: 0 <= i < |TopN(r, n)| <= j < |r| ==> TopN(r, n)[i].1 >= r[j].1
  {
  }

  /** Grouping then ranking yields distinct keys drawn from the input, each
      with its key's total, in non-increasing order, adding up to the total. */
  lemma {:induction false} RankedGroups<K(!new)>(s: seq<(K, int)>)
    ensures DistinctKeys(Rank(GroupSum(s)))
    ensures NonIncreasing(Rank(GroupSum(s)))
    ensures Keys(Rank(GroupSum(s))) == Keys(s)
    ensures Sum(Rank(GroupSum(s))) == Sum(s)
    ensures forall e :: e in Rank(GroupSum(s)) ==> e.1 == Amount(s, e.0)
  {
    GroupSumPartition(s);
    var g := GroupSum(s);
    forall e | e in Rank(g) ensures e.1 == Amount(s, e.0) {
      assert e in multiset(Rank(g));
      assert e in g;
    }
  }
}

=== FILE: options.dfy ===
/** The option lists of the sidebar filters: an "all" sentinel followed by the
    distinct values of a column in ascending order (app.py lines 18-21). */
module FilterOptions {
  import opened Records

  /** Python's `<` on strings: code point by code point, a proper prefix first. */
  predicate LexLess(a: string, b: string)
  {
    if |a| == 0 then |b| > 0
    else if |b| == 0 then false
    else if a[0] != b[0] then a[0] < b[0]
    else LexLess(a[1..], b[1..])
  }

  lemma {:induction false} LexLessIrreflexive(a: string)
    ensures !LexLess(a, a)
  {
    if |a| > 0 {
      LexLessIrreflexive(a[1..]);
    }
  }

  lemma {:induction false} LexLessTotal(a: string, b: string)
    ensures a == b || LexLess(a, b) || LexLess(b, a)
  {
    if |a| > 0 && |b| > 0 && a[0] == b[0] {
      LexLessTotal(a[1..], b[1..]);
      if a[1..] == b[1..] {
        assert a == [a[0]] + a[1..] && b == [b[0]] + b[1..];
      }
    }
  }

  lemma {:induction false} LexLessTransitive(a: string, b: string, c: string)
    requires LexLess(a, b) && LexLess(b, c)
    ensures LexLess(a, c)
  {
    if |a| > 0 && a[0] == b[0] && b[0] == c[0] {
      LexLessTransitive(a[1..], b[1..], c[1..]);
    }
  }

  /** Strictly ascending, hence free of duplicates. */
  predicate StrictlySorted(s: seq<string>)
  {
    forall i, j :: 0 <= i < j < |s| ==> LexLess(s[i], s[j])
  }

  /** A strictly sorted list holds no value twice. */
  lemma StrictlySortedDistinct(s: seq<string>)
    requires StrictlySorted(s)
    ensures forall i, j :: 0 <= i < j < |s| ==> s[i] != s[j]
  {
    forall i, j | 0 <= i < j < |s| ensures s[i] != s[j] {
      LexLessIrreflexive(s[i]);
    }
  }

  /** Puts `x` in its place in a strictly sorted list, unless it is already there. */
  function InsertUnique(x: string, s: seq<string>): (r: seq<string>)
    requires StrictlySorted(s)
    ensures StrictlySorted(r)
    ensures forall v :: v in r <==> v == x || v in s
  {
    if |s| == 0 then [x]
    else if x == s[0] then s
    else if LexLess(x, s[0]) then
      assert forall j :: 0 < j < |s| ==> LexLess(x, s[j]) by {
        forall j | 0 < j < |s| ensures LexLess(x, s[j]) {
          LexLessTransitive(x, s[0], s[j]);
        }
      }
      [x] + s
    else
      LexLessTotal(x, s[0]);
      var rest := InsertUnique(x, s[1..]);
      assert forall v :: v in rest ==> LexLess(s[0], v);
      [s[0]] + rest
  }

  /** `sorted(set(values))`: the distinct values in ascending order. */
  function SortedDistinct(values: seq<string>): (r: seq<string>)
    ensures StrictlySorted(r)
    ensures forall v :: v in r <==> v in values
  {
    if |values| == 0 then []
    else InsertUnique(values[0], SortedDistinct(values[1..]))
  }

  /** The values of one column, in dataset order. */
  function Column(ds: seq<Record>, f: TextField): (col: seq<string>)
    ensures |col| == |ds|
    ensures forall i :: 0 <= i < |ds| ==> col[i] == Text(ds[i], f)
  {
    if |ds| == 0 then [] else [Text(ds[0], f)] + Column(ds[1..], f)
  }

  const AllSectors: string := "TUTTI"
  const AllSubjectTypes: string := "TUTTI"
  const AllRegions: string := "TUTTE"

  /** `[all] + sorted(df[column].unique().tolist())`. */
  function Options(all: string, ds: seq<Record>, f: TextField): (opts: seq<string>)
    ensures |opts| >= 1 && opts[0] == all
    ensures StrictlySorted(opts[1..])
    ensures forall v :: v in opts[1..] <==> exists i :: 0 <= i < |ds| && Text(ds[i], f) == v
  {
    var col := Column(ds, f);
    var values := SortedDistinct(col);
    assert forall v :: v in col <==> exists i :: 0 <= i < |ds| && Text(ds[i], f) == v;
    assert ([all] + values)[1..] == values;
    [all] + values
  }

  function SectorOptions(ds: seq<Record>): seq<string>
  {
    Options(AllSectors, ds, Sector)
  }

  function SubjectTypeOptions(ds: seq<Record>): seq<string>
  {
    Options(AllSubjectTypes, ds, SubjectType)
  }

  function RegionOptions(ds: seq<Record>): seq<string>
  {
    Options(AllRegions, ds, Region)
  }

  /** The year selector offers "all" (None) and two fixed years; unlike the
      other selectors its choices do not come from the data. */
  const YearOptions: seq<Option<int>> := [None, Some(2026), Some(2027)]
}

=== FILE: records.dfy ===
/** The dataset of the parliamentary discretionary fund: one record per
    disbursement line, loaded once and never modified. */
module Records {

  /** A cell that may be missing in the source table (a NaN after loading). */
  datatype Option<+T> = None | Some(value: T)

  /** One disbursement line. `amount` is the `Importo` column in integer
      cents, so sums here are exact; the script adds floats, which agree only
      up to rounding. Only the beneficiary may be missing; the other columns
      are always present in the loaded table. */
  datatype Record = Record(
    beneficiary: Option<string>,
    subjectType: string,
    province: string,
    region: string,
    sector: string,
    year: int,
    amount: int)

  /** The categorical text columns a filter or a grouping can name. */
  datatype TextField = Sector | SubjectType | Region

  function Text(r: Record, f: TextField): string
  {
    match f
    case Sector => r.sector
    case SubjectType => r.subjectType
    case Region => r.region
  }

  /** The region value that marks a record with no assigned region. */
  const Unassigned: string := "Non assegnata"

  /** Sum of the amounts of a view. */
  function Total(view: seq<Record>): int
  {
    if |view| == 0 then 0 else view[0].amount + Total(view[1..])
  }

  /** `a` is `b` with some elements removed and the rest kept in order. */
  ghost predicate IsSubsequence<T>(a: seq<T>, b: seq<T>)
    decreases |b|
  {
    if |a| == 0 then true
    else if |b| == 0 then false
    else (a[0] == b[0] && IsSubsequence(a[1..], b[1..])) || IsSubsequence(a, b[1..])
  }
}

=== FILE: scenarios.dfy ===
/** Worked examples on a three-record dataset: two grants to one beneficiary
    in two sectors, one of them in the unassigned region. */
module Scenarios {
  import opened Records
  import opened FilterOptions
  import opened Filter
  import opened Grouping
  import opened Dashboard

  const X: Record := Record(Some("BeneficiaryX"), "Comune", "RM", "Lazio", "SectorA", 2026, 100)
  const Y: Record := Record(Some("BeneficiaryY"), "Comune", "RM", "Lazio", "SectorA", 2026, 50)
  const Z: Record := Record(Some("BeneficiaryX"), "Comune", "ND", Unassigned, "SectorB", 2027, 30)

  const Sample: seq<Record> := [X, Y, Z]

  const OnlySectorA: Criteria := NoCriteria.(sector := "SectorA")

  lemma SectorAView()
    ensures ApplyFilters(Sample, OnlySectorA) == [X, Y]
  {
    assert Select([Z], FieldIs(Sector, "SectorA")) == [];
    assert [Y, Z][1..] == [Z];
    assert Select([Y, Z], FieldIs(Sector, "SectorA")) == [Y];
    assert Sample[1..] == [Y, Z];
  }

  lemma SectorABeneficiaries()
    ensures |Distinct(Beneficiaries([X, Y]))| == 2
  {
    assert [X, Y][1..] == [Y];
    var s := [Some("BeneficiaryX"), Some("BeneficiaryY")];
    assert Beneficiaries([X, Y]) == s;
    assert Distinct(s) == {Some("BeneficiaryX"), Some("BeneficiaryY")};
    assert "BeneficiaryX"[11] != "BeneficiaryY"[11];
  }

  lemma SectorARegions()
    ensures RegionChart([X, Y]) == [("Lazio", 150)]
  {
    assert [X, Y][1..] == [Y];
    assert Project([Y], AssignedRegionKey) == [("Lazio", 50)];
    assert Project([X, Y], AssignedRegionKey) == [("Lazio", 100), ("Lazio", 50)];
    var empty: seq<(string, int)> := [];
    assert Accumulate(empty, ("Lazio", 100)) == [("Lazio", 100)];
    assert Accumulate([("Lazio", 100)], ("Lazio", 50)) == [("Lazio", 150)];
    assert GroupInto([("Lazio", 150)], []) == [("Lazio", 150)];
    assert GroupInto([("Lazio", 100)], [("Lazio", 50)]) == [("Lazio", 150)];
    assert SortBy([("Lazio", 150)], Descending) == [("Lazio", 150)];
  }

  lemma SectorATotal()
    ensures Total([X, Y]) == 150
  {
    assert [X, Y][1..] == [Y] && [Y][1..] == [];
    assert Total([Y]) == 50;
  }

  /** Filtering on "SectorA" keeps the first two records: 150 in total, two
      beneficiaries, and one region ranked with all of it. */
  lemma {:induction false} SectorAScenario()
    ensures ApplyFilters(Sample, OnlySectorA) == [X, Y]
    ensures Summarize(Sample, OnlySectorA).total == 150
    ensures Summarize(Sample, OnlySectorA).beneficiaries == 2
    ensures Summarize(Sample, OnlySectorA).topRegions == [("Lazio", 150)]
  {
    SectorAView();
    SectorATotal();
    SectorABeneficiaries();
    SectorARegions();
  }

  lemma SampleRegionCount()
    ensures RegionCount(Sample) == 1
  {
    assert Sample[1..] == [Y, Z] && [Y, Z][1..] == [Z];
    assert Assigned([Z]) == [];
    assert Assigned([Y, Z]) == [Y];
    assert Assigned(Sample) == [X, Y];
    assert [X, Y][1..] == [Y];
    assert Column([X, Y], Region) == ["Lazio", "Lazio"];
    assert Distinct(["Lazio", "Lazio"]) == {"Lazio"};
  }

  lemma SampleSectorGroups()
    ensures GroupSum(Project(Sample, SectorKey)) == [("SectorA", 150), ("SectorB", 30)]
  {
    assert Sample[1..] == [Y, Z] && [Y, Z][1..] == [Z];
    assert Project([Z], SectorKey) == [("SectorB", 30)];
    assert Project([Y, Z], SectorKey) == [("SectorA", 50), ("SectorB", 30)];
    assert Project(Sample, SectorKey) == [("SectorA", 100), ("SectorA", 50), ("SectorB", 30)];
    var empty: seq<(string, int)> := [];
    var g1 := [("SectorA", 100)];
    var g2 := [("SectorA", 150)];
    var g3 := [("SectorA", 150), ("SectorB", 30)];
    assert Accumulate(empty, ("SectorA", 100)) == g1;
    assert Accumulate(g1, ("SectorA", 50)) == g2;
    assert "SectorA"[6] != "SectorB"[6];
    assert Accumulate(empty, ("SectorB", 30)) == [("SectorB", 30)];
    assert Accumulate(g2, ("SectorB", 30)) == g3;
    assert GroupInto(g3, []) == g3;
    assert GroupInto(g2, [("SectorB", 30)]) == g3;
    assert GroupInto(g1, [("SectorA", 50), ("SectorB", 30)]) == g3;
  }

  lemma SampleSectorChart()
    ensures SectorChart(Sample) == [("SectorA", 150), ("SectorB", 30)]
  {
    SampleSectorGroups();
    var g3 := [("SectorA", 150), ("SectorB", 30)];
    assert g3[1..] == [("SectorB", 30)];
    assert SortBy([("SectorB", 30)], Descending) == [("SectorB", 30)];
    assert SortBy(g3, Descending) == g3;
  }

  lemma SampleTotal()
    ensures Total(Sample) == 180
  {
    assert Sample[1..] == [Y, Z] && [Y, Z][1..] == [Z] && [Z][1..] == [];
    assert Total([Z]) == 30;
    assert Total([Y, Z]) == 80;
  }

  /** With no filter: the whole sample, 180 in total, one region counted (the
      sentinel is not), and the sectors ranked A (150) before B (30). */
  lemma {:induction false} UnfilteredScenario()
    ensures ApplyFilters(Sample, NoCriteria) == Sample
    ensures Summarize(Sample, NoCriteria).total == 180
    ensures Summarize(Sample, NoCriteria).regions == 1
    ensures Summarize(Sample, NoCriteria).bySector == [("SectorA", 150), ("SectorB", 30)]
  {
    SampleTotal();
    SampleRegionCount();
    SampleSectorChart();
  }
}

=== FILE: search.dfy ===
/** The free-text beneficiary search: a case-insensitive literal substring
    test, where a missing beneficiary never matches. */
module Search {
  import opened Records

  function LowerChar(ch: char): char
  {
    if 'A' <= ch <= 'Z' then (ch as int + 32) as char else ch
  }

  /** ASCII lower-casing, character by character. */
  function Lower(s: string): (r: string)
    ensures |r| == |s|
    ensures forall i :: 0 <= i < |s| ==> r[i] == LowerChar(s[i])
  {
    if |s| == 0 then [] else [LowerChar(s[0])] + Lower(s[1..])
  }

  /** `needle` occurs in `hay` starting at `hay[0]`. */
  predicate StartsWith(hay: string, needle: string)
  {
    |needle| <= |hay| && hay[..|needle|] == needle
  }

  /** `needle` occurs somewhere in `hay`; the empty string occurs everywhere. */
  predicate Contains(hay: string, needle: string)
  {
    StartsWith(hay, needle) || (|hay| > 0 && Contains(hay[1..], needle))
  }

  /** The literal occurrence of `needle` at position `i` of `hay`. */
  predicate OccursAt(hay: string, needle: string, i: int)
  {
    0 <= i && i + |needle| <= |hay| && hay[i..i + |needle|] == needle
  }

  lemma {:induction false} ContainsIffOccurs(hay: string, needle: string)
    ensures Contains(hay, needle) <==> exists i :: OccursAt(hay, needle, i)
  {
    if Contains(hay, needle) {
      if StartsWith(hay, needle) {
        assert OccursAt(hay, needle, 0);
      } else {
        ContainsIffOccurs(hay[1..], needle);
        var i :| OccursAt(hay[1..], needle, i);
        assert hay[1..][i..i + |needle|] == hay[i + 1..i + 1 + |needle|];
        assert OccursAt(hay, needle, i + 1);
      }
    }
    if exists i :: OccursAt(hay, needle, i) {
      var i :| OccursAt(hay, needle, i);
      if i == 0 {
        assert StartsWith(hay, needle);
      } else {
        assert hay[1..][i - 1..i - 1 + |needle|] == hay[i..i + |needle|];
        assert OccursAt(hay[1..], needle, i - 1);
        ContainsIffOccurs(hay[1..], needle);
      }
    }
  }

  /** Two characters are equal once case is ignored. */
  predicate SameLetter(a: char, b: char)
  {
    LowerChar(a) == LowerChar(b)
  }

  /** `text` occurs at position `i` of `name` when letter case is ignored. */
  predicate OccursIgnoringCaseAt(name: string, text: string, i: int)
  {
    0 <= i && i + |text| <= |name| &&
    forall j :: 0 <= j < |text| ==> SameLetter(name[i + j], text[j])
  }

  /** The folded substring test holds exactly when the text occurs in `name`
      at some position, letter by letter up to case. */
  lemma FoldedContainsIff(name: string, text: string)
    ensures Contains(Lower(name), Lower(text)) <==> exists i :: OccursIgnoringCaseAt(name, text, i)
  {
    var hay, needle := Lower(name), Lower(text);
    ContainsIffOccurs(hay, needle);
    forall i | 0 <= i
      ensures OccursAt(hay, needle, i) <==> OccursIgnoringCaseAt(name, text, i)
    {
      if i + |needle| <= |hay| {
        if OccursAt(hay, needle, i) {
          forall j | 0 <= j < |text|
            ensures SameLetter(name[i + j], text[j])
          {
            assert hay[i..i + |needle|][j] == hay[i + j];
          }
        }
        if OccursIgnoringCaseAt(name, text, i) {
          assert forall j :: 0 <= j < |needle| ==> hay[i..i + |needle|][j] == needle[j];
        }
      }
    }
  }

  /** The search predicate of app.py line 34: `Beneficiario.str.contains(text,
      case=False, na=False)`, with `text` taken literally. A missing
      beneficiary never matches; a present one matches exactly when the text
      occurs in it letter by letter up to case. */
  predicate SearchHits(text: string, beneficiary: Option<string>)
    ensures SearchHits(text, beneficiary) <==>
      beneficiary.Some? && exists i :: OccursIgnoringCaseAt(beneficiary.value, text, i)
  {
    match beneficiary
    case None => false
    case Some(name) =>
      FoldedContainsIff(name, text);
      Contains(Lower(name), Lower(text))
  }

  /** Changing the letter case of the search text does not change the result. */
  lemma {:induction false} SearchIgnoresCase(text: string, other: string, beneficiary: Option<string>)
    requires |text| == |other|
    requires forall j :: 0 <= j < |text| ==> SameLetter(text[j], other[j])
    ensures SearchHits(text, beneficiary) <==> SearchHits(other, beneficiary)
  {
    assert Lower(text) == Lower(other);
  }
}
